=== FILE: README.md ===
# EvanBot recording and ping logic in Dafny

EvanBot is a Discord bot. Its `/record` command joins the caller's voice channel and
records every non-bot member (and anyone who starts speaking later) into a per-user
stream; `/stoprecord` ends all streams of the guild, converts each to an MP3 file named
`<guildId>-<username>-<timestamp>.mp3` in the recordings directory, leaves the channel
and replies "Finished Command" (the saved files are not listed to the user). A message that starts with a mention of the bot
followed by whitespace is read aloud in the author's voice channel.

This project models the decision logic behind those features:

- `Recording` (recording-logic.js): the registry `activeStreams` (guild → user → stream
  entry; only the user level keeps insertion order, because the snapshot
  `Array.from(guildStreams.keys())` reads it, while the guild level is never iterated and
  is an unordered map) as the field of a `Recorder` class, with
  `startUserRecording`, `stopUserRecording`, the stream error handler,
  `stopGuildRecording` and `isGuildRecording` as methods, each proved against the
  specification functions `AfterStart`, `AfterStop` and `SavedPaths`.
- `RecordingLemmas`: what those functions imply — idempotent start, exactly one entry
  added or removed, start-then-stop round trip, injective output paths, which paths a
  guild stop reports and how many.
- `Voice`: the part of the voice library the bot relies on — the per-guild connection
  table (`getVoiceConnection`), joining, destroying (which throws on a connection that
  is already destroyed) and waiting for `Ready`.
- `RecordCommand` and `StopRecordCommand` (commands/recording/): the two slash commands,
  their replies and their effect on the registry and the connections.
- `Tts` (tts-logic.js): the parameter check of `playTextToSpeech` and
  `findMostPopulatedVoiceChannel`.
- `Bot` (index.js): command registration at start-up, slash-command dispatch, and the
  ping handler (recognising `^<@!?ID>\s+`, extracting the text, the early returns and the
  reaction).
- `Ids`, `Strings`, `OrderedMaps`, `Wrappers`: Discord ids as strings, JavaScript string helpers (`trim`, `\s`,
  decimal rendering of numbers), a JavaScript `Map` with its insertion order, and
  `Option`/`Result`.

Everything outside the process is a parameter: `Date.now()` values, whether subscribing
to a user's audio throws, whether a connection reaches `Ready` within 30 s, which ffmpeg
conversions fail, what `guild.members.fetch` returns, whether speech was played, and
whether another handler destroyed the connection while conversions were awaited.

Stopping a single user leaves that guild's (possibly empty) map in the registry
(recording-logic.js:90 deletes only the user). An empty map counts as "not recording"
(recording-logic.js:157). ffmpeg writes directly to the final `.mp3` path, with no
intermediate file.

## Model

| member | source | states |
|---|---|---|
| `Recording.Recorder.constructor` | recording-logic.js:8-15 | the registry starts empty and the recordings directory is fixed |
| `Recording.Recorder.IsGuildRecording` | recording-logic.js:155-158 | true exactly when the guild has a map with at least one user |
| `Recording.Recorder.StartUserRecording` | recording-logic.js:17-44 | outcome is AlreadyRecording iff the user is tracked, Started iff not tracked and subscribing succeeds; new registry is `AfterStart` (guild map created first, entry appended with name and time, nothing else changes) |
| `Recording.Recorder.StopUserRecording` | recording-logic.js:57-113 | nothing to stop iff the user is untracked; otherwise the user is removed (`AfterStop`) and, when conversion succeeds, the result is the path built from the stored name and time |
| `Recording.Recorder.OnStreamError` | recording-logic.js:45-49 | a stream error stops that user as `stopUserRecording` does: nothing to stop iff untracked, saved iff tracked and the conversion succeeds, and otherwise a failed conversion whose rejection the handler leaves unhandled |
| `Recording.Recorder.StopEach` | recording-logic.js:131-137 | stopping every user of the snapshot empties the guild's map, leaves other guilds alone and yields `SavedPaths` (one path per successful conversion, in snapshot order) |
| `Recording.Recorder.StopGuildRecording` | recording-logic.js:116-152 | not recording: registry unchanged, result empty, connection destroyed; recording: guild removed from the registry, result is the saved paths, or an error when the connection had already been destroyed; afterwards the guild is not recording and has no connection |
| `Recording.AfterStart` | recording-logic.js:17-41 | keeps the registry well formed (ordered maps without duplicate keys) |
| `Recording.AfterStop` | recording-logic.js:57-90 | keeps the registry well formed |
| `Recording.OutputPath` | recording-logic.js:92 | the path starts with the directory, a separator, the guild id, the username with their dashes, and ends in `.mp3` |
| `Recording.SavedPaths` | recording-logic.js:131-137 | one path per snapshot user whose conversion succeeds, in order, so never more paths than users (`SavedPathsMembers` and `SavedPathsCount` give both directions and the exact count) |
| `RecordingLemmas.RecordingIffSomeUser` | recording-logic.js:155-158 | a guild is recording iff some user of it is tracked |
| `Recording.GuildOrNew` | recording-logic.js:19-22 | the guild's map, or a new empty one, is well formed |
| `Recording.StopHead` | recording-logic.js:131-135 | stopping the first remaining snapshot user removes it from the front of the guild's key order |
| `Recording.SavedPathsStep` | recording-logic.js:132-137 | one more stopped user appends its path exactly when its conversion succeeded |
| `RecordingLemmas.StartIsIdempotent` | recording-logic.js:24-27 | a second start of a tracked user changes nothing, whatever name or time it carries |
| `RecordingLemmas.StartAddsExactlyOne` | recording-logic.js:17-41 | starting an untracked user adds exactly that user with its entry, at the end of the order; the guild is then recording; all other entries unchanged |
| `RecordingLemmas.FailedSubscribeAddsNoUser` | recording-logic.js:19-33 | a throwing subscribe leaves the guild map created but no user added and recording status unchanged |
| `RecordingLemmas.StopRemovesExactlyOne` | recording-logic.js:57-90 | stopping a tracked user removes exactly that user; the guild stays in the registry one entry smaller |
| `RecordingLemmas.StopLastUserLeavesEmptyGuild` | recording-logic.js:90 | stopping the last user leaves an empty map that counts as not recording |
| `RecordingLemmas.StartThenStop` | recording-logic.js:17-90 | start then stop of an untracked user restores the registry, except that the guild's map now exists |
| `RecordingLemmas.RemoveLast` | recording-logic.js:90 | deleting the most recently inserted key restores the previous key order |
| `RecordingLemmas.OutputPathInjective` | recording-logic.js:92 | for digit-string guild ids, equal output paths mean equal guild, username and timestamp |
| `RecordingLemmas.PathPartsInjective` | recording-logic.js:92 | with digit-string guild ids and timestamps, the path `dir/g-u-t.mp3` determines `g`, `u` and `t` |
| `RecordingLemmas.PathLayout` | recording-logic.js:92 | the output path is directory, separator, guild id, dash, username, dash, timestamp, `.mp3` at fixed offsets |
| `RecordingLemmas.SavedPathsMembers` | recording-logic.js:132-137 | a path is reported iff it is the path of some snapshot user whose conversion succeeded |
| `RecordingLemmas.SavedPathsCount` | recording-logic.js:137 | the number of reported paths is the number of users minus the failed ones, never more than the users |
| `RecordingLemmas.OneFailureLosesOnePath` | recording-logic.js:132-137 | with exactly one failed conversion, N users yield N - 1 paths |
| `RecordingLemmas.AliceScenario` | recording-logic.js:17-92 | user Alice in G1 at time 1000 is saved to `recordings/G1-Alice-1000.mp3`; G1 stays in the registry, not recording |
| `RecordCommand.Execute` | commands/recording/record.js:9-106 | refuses exactly when not in a server, not in a voice channel or already recording, with those replies in that order and no state change; otherwise a connection to another channel is destroyed, the members are started once ready, "Command Started" iff ready and no start threw, with a ready listening connection to the caller's channel, which is the connection the command prepared; on failure that prepared connection is destroyed, and the bot leaves the channel, exactly when no user of the guild is recording, and otherwise stays the guild's tracked connection |
| `RecordCommand.ReleaseAfterFailure` | commands/recording/record.js:95-103 | after a failed start, the prepared connection is destroyed and untracked exactly when the guild is not recording, and is kept as the guild's connection otherwise; other guilds' connections are untouched |
| `RecordCommand.PrepareConnection` | commands/recording/record.js:27-62 | reuses a connection to the same channel, destroys one to another channel and joins anew; the result is tracked for the guild, not destroyed, and ready iff the wait succeeded |
| `RecordCommand.StartChannelMembers` | commands/recording/record.js:81-88 | the registry after the member loop is `StartMembers` (non-bots started in order, stopping at the first throwing subscribe) |
| `RecordCommand.StartMembers` | commands/recording/record.js:81-88 | keeps the registry well formed |
| `RecordCommand.StartMembersKeepsOthers` | commands/recording/record.js:81-88 | other guilds are untouched |
| `RecordCommand.StartMembersRecordsNonBots` | commands/recording/record.js:81-88 | without a throw, every non-bot member is tracked afterwards |
| `RecordCommand.StartMembersAddsOnlyNonBots` | commands/recording/record.js:81-88 | every newly tracked user is a non-bot member of the channel |
| `RecordCommand.ThrowEndsTheLoop` | commands/recording/record.js:81-88 | once a start has thrown, later members change nothing |
| `RecordCommand.OnSpeakingStart` | commands/recording/record.js:67-77 | a speaking user is started with the fetched username; a failed fetch changes nothing |
| `StopRecordCommand.Execute` | commands/recording/stoprecord.js:10-54 | not in a server: nothing changes; not recording: leaves the channel if connected, else says not recording; recording: the guild is removed, the connection destroyed, and the reply is "Finished Command" unless the connection had already been destroyed ("Error With Command") |
| `Voice.VoiceConnections.Get` | recording-logic.js:66 | `getVoiceConnection` returns the connection tracked for the guild, if any |
| `Voice.VoiceConnections.Join` | commands/recording/record.js:45-51 | a fresh signalling connection to the channel becomes the guild's tracked connection |
| `Voice.VoiceConnections.Destroy` | recording-logic.js:145 | the connection ends destroyed and untracked; the call succeeds iff it was not already destroyed |
| `Voice.VoiceConnections.AwaitReady` | commands/recording/record.js:55-60 | succeeds iff already ready, or it becomes ready and was not destroyed |
| `Voice.VoiceConnections.Listen` | commands/recording/record.js:67 | the connection now has the speaking listener |
| `Tts.PlayTextToSpeech` | tts-logic.js:14-18 | false when the channel, guild or text is missing or the text empty; otherwise the outcome of playing |
| `Tts.FindMostPopulatedVoiceChannel` | tts-logic.js:87-106 | none iff no guild or no occupied voice channel; otherwise an occupied voice channel with the largest member count, the first such on ties |
| `Bot.LoadCommands` | index.js:24-37 | the collection is `Registered` over all folders' files in order |
| `Bot.LoadFolder` | index.js:26-36 | one folder's files are registered in listing order |
| `Bot.RegisteredSnoc` | index.js:31-32 | one more file adds its module under its name iff it is registrable |
| `Bot.RegisteredNames` | index.js:26-32 | a name is registered iff some `.js` file with `data` and `execute` carries it |
| `Bot.RegisteredIsLast` | index.js:32 | the module under a name is that of the last such file |
| `Bot.Visit` | index.js:31-35 | a visited file adds exactly its own name when it has `data` and `execute`, and its own module is then the one stored under that name (replacing an earlier module of that name); every other entry is left as it was |
| `Bot.Registered` | index.js:24-37 | every registered module has `data` and `execute` and is stored under its own name |
| `Bot.Dispatch` | index.js:45-66 | ignores non-chat-input interactions, only logs unknown names, runs the registered command; a command that completes gets nothing more, one that threw after replying or deferring gets a follow-up, one that threw before gets a reply |
| `Bot.SpaceRun` | index.js:85 | the length of the maximal leading run of `\s` characters |
| `Bot.PingMatch` | index.js:85-90 | a match never exceeds the content |
| `Bot.PingRecognition` | index.js:85-90 | the pattern matches iff the content starts with `<@!ID>` or `<@ID>` followed by whitespace |
| `Bot.ExtractText` | index.js:95 | text is extracted exactly for pings |
| `Bot.ExtractedTextAfterMention` | index.js:95 | the extracted text is the trimmed content after the mention |
| `Bot.RequestSpeech` | index.js:69-124 | speech is requested only for a non-bot author, a ready client and a ping; the text is non-empty, trimmed and the extracted text; the channel is the author's; every such message with a voice channel gets a request |
| `Bot.HandleMessage` | index.js:123-135 | reacts iff speech was requested; a speaker iff speech played in a guild, a cross iff playing failed or the guard refused, a warning when an exception was raised |
| `Bot.HandlerPassesTheGuard` | index.js:123-131 | in a guild message the reaction is exactly the play outcome |
| `Strings.ShowNat` | recording-logic.js:92 | the decimal rendering is non-empty, all digits, no leading zero |
| `Strings.ParseShowNat` | recording-logic.js:92 | parsing the rendering gives the number back |
| `Strings.ShowNatInjective` | recording-logic.js:92 | different timestamps render differently |
| `Strings.Trim` | index.js:95 | the result neither starts nor ends with whitespace |
| `Strings.TrimSpec` | index.js:95 | the result is a slice with only whitespace removed on both sides |
| `Strings.TrimIdempotent` | index.js:95 | trimming twice equals trimming once |
| `Strings.TrimSkipsLeadingSpace` | index.js:95 | leading whitespace removed before trimming does not change the result |
| `OrderedMaps.OMap.Set` | recording-logic.js:41 | the key maps to the value, other keys unchanged, a new key goes last |
| `OrderedMaps.OMap.Delete` | recording-logic.js:90 | the key is gone, others unchanged, size one less if it was present, and the remaining keys are the old key order with that key filtered out (see `RemoveAt`) |
| `OrderedMaps.Remove` | recording-logic.js:90 | exactly the other keys remain, still without duplicates |
| `OrderedMaps.RemoveAt` | recording-logic.js:90 | the key order after `Map.delete`: the key at position `i` is cut out and the keys before and after it stay in their order, which is what the snapshot at recording-logic.js:131 reads |
| `OrderedMaps.RemoveCount` | recording-logic.js:90 | removing a present key from a duplicate-free order shortens it by one |

## Left out

- Audio plumbing: the Opus subscription, the PassThrough stream, its piping, the 'end'
  log handler and ffmpeg's format settings; a conversion is reduced to "succeeds" or
  "fails" per user.
- File system effects: creating the recordings directory at load time, writing MP3
  files, and the temporary TTS audio file with its deletion.
- `path.join` normalisation: paths are modelled as directory + "/" + file name.
- Speech generation (ElevenLabs), audio playback in `playTextToSpeech` and the
  `/evan` command, which is not part of this model; the outcome is a parameter.
- Discord API calls (replies, deferrals, edits, reactions) are reduced
  to the reply or reaction chosen; their own failures are not modelled, except that an
  exception in the TTS call or reaction yields the warning reaction.
- Concurrency: handlers run one at a time; the only interleaving modelled is another
  handler destroying the guild's connection while `stopGuildRecording` awaits its
  conversions. Starts of users during that wait are not modelled.
- `Bot.PingMatch`: the bot id is inserted literally; ids containing regular-expression
  metacharacters are not modelled (Discord ids are digit strings).
- Strings are sequences of Unicode scalar values, not UTF-16 code units.
- `Bot.LoadCommands`: a module whose `data` property is present but null or undefined
  (where `command.data.name` would throw) is not modelled.
- `Recording.Recorder.OnStreamError`: the rejection the handler leaves unhandled is reported as `TranscodeFailed`; its consequence for the process (by default Node terminates on an unhandled rejection, ending every guild's recording) is not modelled.
- `RecordCommand.OnSpeakingStart`: each `/record` adds another speaking listener to a
  reused connection; the model records only that one is attached.
- Logging (`console.*`) and the ready-event log line.

=== FILE: bot.dfy ===
/**
 * The decision logic of index.js: which command modules are registered at start-up, how
 * a slash command is dispatched, and how a message that pings the bot is turned into a
 * request to speak its text.
 */
module Bot {
  import opened Wrappers
  import opened Strings
  import opened Ids
  import Tts

  // ---------------------------------------------------------------------------------
  // Command registration (the nested loop over `commands/<folder>/<file>`)

  /** `command.data`, reduced to its `name`. */
  datatype CommandData = CommandData(name: string)

  /** What `require(filePath)` exports: `data` when the module has that property, and
      whether it has `execute`. */
  datatype CommandModule = CommandModule(data: Option<CommandData>, hasExecute: bool)

  /** A file of a command folder and the module it exports. */
  datatype SourceFile = SourceFile(name: string, exports: CommandModule)

  /** A file that ends up in `client.commands`: a `.js` file whose module has both `data`
      and `execute`. */
  predicate IsRegistrable(f: SourceFile) {
    EndsWith(f.name, ".js") && f.exports.data.Some? && f.exports.hasExecute
  }

  /** The files of all folders, folder by folder, in listing order. */
  function Flatten(folders: seq<seq<SourceFile>>): seq<SourceFile> {
    if folders == [] then [] else Flatten(folders[..|folders| - 1]) + folders[|folders| - 1]
  }

  /** One pass of the inner loop: a registrable file is set under its `data.name`,
      replacing any earlier module of that name. */
  function Visit(commands: map<string, CommandModule>, f: SourceFile): (r: map<string, CommandModule>)
    ensures forall k :: k in r <==> k in commands || (IsRegistrable(f) && k == f.exports.data.value.name)
    ensures forall k :: k in commands && !(IsRegistrable(f) && k == f.exports.data.value.name) ==> r[k] == commands[k]
    ensures IsRegistrable(f) ==> r[f.exports.data.value.name] == f.exports
    ensures AllCommands(commands) ==> AllCommands(r)
  {
    if IsRegistrable(f) then commands[f.exports.data.value.name := f.exports] else commands
  }

  /** Every module of the collection has `data` and `execute` and is stored under its own
      `data.name`. */
  predicate AllCommands(commands: map<string, CommandModule>) {
    forall k :: k in commands ==>
      commands[k].data.Some? && commands[k].hasExecute && commands[k].data.value.name == k
  }

  /** The collection after visiting `files` in order. */
  function Registered(files: seq<SourceFile>): (r: map<string, CommandModule>)
    ensures AllCommands(r)
  {
    if files == [] then map[] else Visit(Registered(files[..|files| - 1]), files[|files| - 1])
  }

  lemma RegisteredSnoc(files: seq<SourceFile>, f: SourceFile)
    ensures Registered(files + [f]) == Visit(Registered(files), f)
  {
    assert (files + [f])[..|files|] == files;
  }

  /** The inner loop, over the files of one folder. */
  method LoadFolder(commands: map<string, CommandModule>, ghost before: seq<SourceFile>, files: seq<SourceFile>)
      returns (loaded: map<string, CommandModule>)
    requires commands == Registered(before)
    ensures loaded == Registered(before + files)
  {
    loaded := commands;
    assert before + files[..0] == before;
    for j := 0 to |files|
      invariant loaded == Registered(before + files[..j])
    {
      var file := files[j];
      RegisteredSnoc(before + files[..j], file);
      assert before + files[..j] + [file] == before + files[..j + 1];
      if EndsWith(file.name, ".js") {
        var command := file.exports;
        if command.data.Some? && command.hasExecute {
          loaded := loaded[command.data.value.name := command];
        }
      }
    }
    assert files[..|files|] == files;
  }

  /** Start-up registration: `client.commands` after the two nested loops. */
  method LoadCommands(folders: seq<seq<SourceFile>>) returns (commands: map<string, CommandModule>)
    ensures commands == Registered(Flatten(folders))
  {
    commands := map[];
    for i := 0 to |folders|
      invariant commands == Registered(Flatten(folders[..i]))
    {
      commands := LoadFolder(commands, Flatten(folders[..i]), folders[i]);
      assert folders[..i + 1][..i] == folders[..i];
    }
    assert folders[..|folders|] == folders;
  }

  /** Some registrable file among `files` carries `name`. */
  predicate Declares(files: seq<SourceFile>, i: int, name: string) {
    0 <= i < |files| && IsRegistrable(files[i]) && files[i].exports.data.value.name == name
  }

  /** A name is registered exactly when some registrable file carries it. */
  lemma {:induction false} RegisteredNames(files: seq<SourceFile>, name: string)
    ensures name in Registered(files) <==> exists i :: Declares(files, i, name)
  {
    if files != [] {
      var n := |files| - 1;
      var pre := files[..n];
      RegisteredNames(pre, name);
      assert Registered(files) == Visit(Registered(pre), files[n]);
      if exists i :: Declares(pre, i, name) {
        var i :| Declares(pre, i, name);
        assert pre[i] == files[i];
        assert Declares(files, i, name);
      }
      if name in Registered(files) && !Declares(files, n, name) {
        assert name in Registered(pre);
      }
      if exists i :: Declares(files, i, name) {
        var i :| Declares(files, i, name);
        if i < n {
          assert pre[i] == files[i];
          assert Declares(pre, i, name);
        }
      }
    }
  }

  /** The module registered under a name is that of the last registrable file carrying
      it: later files of the same name replace earlier ones. */
  lemma {:induction false} RegisteredIsLast(files: seq<SourceFile>, name: string, i: int)
    requires Declares(files, i, name)
    requires forall j :: i < j < |files| ==> !Declares(files, j, name)
    ensures name in Registered(files) && Registered(files)[name] == files[i].exports
  {
    var n := |files| - 1;
    var pre := files[..n];
    if i < n {
      assert Declares(pre, i, name);
      forall j | i < j < |pre| ensures !Declares(pre, j, name) {
        assert !Declares(files, j, name);
      }
      RegisteredIsLast(pre, name, i);
      assert !Declares(files, n, name);
    }
  }

  // ---------------------------------------------------------------------------------
  // Slash-command dispatch (the InteractionCreate handler)

  /** The parts of an interaction the handler looks at. */
  datatype Interaction = Interaction(isChatInputCommand: bool, commandName: string)

  /** How `command.execute(interaction)` ended; an exception carries whether the
      interaction had already been replied to or deferred. */
  datatype ExecOutcome = Completed | Threw(repliedOrDeferred: bool)

  /** What the handler does: nothing for other interactions, only a log line for unknown
      names, otherwise it runs the command and, if that throws, sends the error message as
      a follow-up or as a reply. */
  datatype Dispatched = NotACommand | UnknownCommand | Ran(command: CommandModule)
                      | RanThenFollowedUp(command: CommandModule) | RanThenReplied(command: CommandModule)

  function Dispatch(commands: map<string, CommandModule>, interaction: Interaction, outcome: ExecOutcome): (d: Dispatched)
    ensures d.NotACommand? <==> !interaction.isChatInputCommand
    ensures d.UnknownCommand? <==> interaction.isChatInputCommand && interaction.commandName !in commands
    ensures !d.NotACommand? && !d.UnknownCommand? ==>
      interaction.commandName in commands && d.command == commands[interaction.commandName]
    ensures d.Ran? <==>
      (interaction.isChatInputCommand && interaction.commandName in commands && outcome.Completed?)
    ensures d.RanThenReplied? <==>
      (interaction.isChatInputCommand && interaction.commandName in commands && outcome == Threw(false))
    ensures d.RanThenFollowedUp? <==>
      (interaction.isChatInputCommand && interaction.commandName in commands && outcome.Threw? && outcome.repliedOrDeferred)
  {
    if !interaction.isChatInputCommand then NotACommand
    else if interaction.commandName !in commands then UnknownCommand
    else
      var command := commands[interaction.commandName];
      match outcome
      case Completed => Ran(command)
      case Threw(repliedOrDeferred) =>
        if repliedOrDeferred then RanThenFollowedUp(command) else RanThenReplied(command)
  }

  // ---------------------------------------------------------------------------------
  // Pings (the MessageCreate handler)

  /** A user mention of the bot: `<@id>`, or `<@!id>` for the nickname form. */
  function Mention(botId: string, nickname: bool): string {
    if nickname then "<@!" + botId + ">" else "<@" + botId + ">"
  }

  /** The length of the run of whitespace `s` starts with. */
  function SpaceRun(s: string): (n: nat)
    ensures n <= |s|
    ensures forall i :: 0 <= i < n ==> IsSpace(s[i])
    ensures n == |s| || !IsSpace(s[n])
  {
    if s != [] && IsSpace(s[0]) then 1 + SpaceRun(s[1..]) else 0
  }

  /** The match of `mention` followed by `\s+` at the start of `content`, as the matched
      length (`\s+` is greedy). */
  function MatchAfter(content: string, mention: string): Option<nat> {
    if IsPrefix(mention, content) && SpaceRun(content[|mention|..]) > 0
    then Some(|mention| + SpaceRun(content[|mention|..]))
    else None
  }

  /** `^<@!?ID>\s+` at the start of `content`: the length matched, `!` being tried first.
      Bot ids are digit strings, so the id is matched literally. */
  function PingMatch(content: string, botId: string): (r: Option<nat>)
    ensures r.Some? ==> r.value <= |content|
  {
    var nick := MatchAfter(content, Mention(botId, true));
    if nick.Some? then nick else MatchAfter(content, Mention(botId, false))
  }

  /** A ping written out: one of the two mentions, then a whitespace character. */
  predicate MentionThenSpace(content: string, mention: string) {
    |content| > |mention| && content[..|mention|] == mention && IsSpace(content[|mention|])
  }

  predicate StartsWithPing(content: string, botId: string) {
    MentionThenSpace(content, Mention(botId, true)) || MentionThenSpace(content, Mention(botId, false))
  }

  /** The pattern matches exactly the messages that start with a mention of the bot and
      a whitespace character. */
  lemma PingRecognition(content: string, botId: string)
    ensures PingMatch(content, botId).Some? <==> StartsWithPing(content, botId)
  {
    var a, b := Mention(botId, true), Mention(botId, false);
    if MentionThenSpace(content, a) {
      assert content[|a|..][0] == content[|a|];
    }
    if MentionThenSpace(content, b) {
      assert content[|b|..][0] == content[|b|];
    }
  }

  /** `content.replace(pingRegex, '').trim()` for a ping. */
  function ExtractText(content: string, botId: string): (text: Option<string>)
    ensures text.Some? <==> PingMatch(content, botId).Some?
  {
    match PingMatch(content, botId)
    case None => None
    case Some(k) => Some(Trim(content[k..]))
  }

  /** The mention a ping starts with: the nickname form if it matches, else the plain one. */
  function PingMention(content: string, botId: string): string {
    if MentionThenSpace(content, Mention(botId, true)) then Mention(botId, true) else Mention(botId, false)
  }

  /** A ping's match is its mention and the whitespace run after it. */
  lemma PingMatchIsMentionAndSpace(content: string, botId: string)
    requires PingMatch(content, botId).Some?
    ensures var m := PingMention(content, botId);
      |m| <= |content| && PingMatch(content, botId) == Some(|m| + SpaceRun(content[|m|..]))
  {
    PingRecognition(content, botId);
    var nick := Mention(botId, true);
    if !MentionThenSpace(content, nick) && IsPrefix(nick, content) && |content| > |nick| {
      assert content[|nick|..][0] == content[|nick|];
    }
  }

  /** Removing the whitespace run along with the mention changes nothing once the rest is
      trimmed: the text is the trimmed remainder after the mention. */
  lemma ExtractedTextAfterMention(content: string, botId: string)
    requires PingMatch(content, botId).Some?
    ensures |PingMention(content, botId)| <= |content|
    ensures ExtractText(content, botId) == Some(Trim(content[|PingMention(content, botId)|..]))
  {
    PingMatchIsMentionAndSpace(content, botId);
    var a := |PingMention(content, botId)|;
    var k := SpaceRun(content[a..]);
    ExtractTextAt(content, botId, a + k);
    TrimAfterSpaces(content, a, k);
  }

  lemma ExtractTextAt(content: string, botId: string, j: nat)
    requires PingMatch(content, botId) == Some(j)
    ensures j <= |content| && ExtractText(content, botId) == Some(Trim(content[j..]))
  {
  }

  /** Trimming what follows a whitespace run is trimming from the start of the run. */
  lemma TrimAfterSpaces(s: string, a: nat, k: nat)
    requires a + k <= |s| && k == SpaceRun(s[a..])
    ensures Trim(s[a + k..]) == Trim(s[a..])
  {
    assert s[a + k..] == s[a..][k..];
    TrimSkipsLeadingSpace(s[a..], k);
  }

  /** A message as the handler sees it. `member` is `message.member`, given by the
      member's voice channel, if any. */
  datatype Message = Message(content: string, authorIsBot: bool, member: Option<Option<ChannelId>>, guild: Option<GuildId>)

  /** What the handler passes to `playTextToSpeech`. */
  datatype SpeechRequest = SpeechRequest(text: string, channel: ChannelId)

  /** The handler up to the call of `playTextToSpeech`: `None` when it returns before it
      (a bot author, the client user not ready, no ping, no text, no member, no voice
      channel). `botId` is `client.user.id` once the client is ready. */
  function RequestSpeech(msg: Message, botId: Option<string>): (r: Option<SpeechRequest>)
    ensures r.Some? ==> !msg.authorIsBot && botId.Some? && StartsWithPing(msg.content, botId.value)
    ensures r.Some? ==> msg.member == Some(Some(r.value.channel))
    ensures r.Some? ==> r.value.text != [] && !IsSpace(r.value.text[0]) && !IsSpace(r.value.text[|r.value.text| - 1])
    ensures r.Some? ==> r.value.text == ExtractText(msg.content, botId.value).value
    ensures !msg.authorIsBot && botId.Some? && msg.member.Some? && msg.member.value.Some?
      && ExtractText(msg.content, botId.value).Some? && ExtractText(msg.content, botId.value).value != []
      ==> r.Some?
  {
    if msg.authorIsBot || botId.None? then None
    else
      PingRecognition(msg.content, botId.value);
      match ExtractText(msg.content, botId.value)
      case None => None
      case Some(text) =>
        if text == [] then None
        else if msg.member.None? then None
        else if msg.member.value.None? then None
        else Some(SpeechRequest(text, msg.member.value.value))
  }

  /** How the call of `playTextToSpeech` and the reaction ended: its return value, or an
      exception. */
  datatype SpeechOutcome = Returned(played: bool) | Raised

  /** The reaction the handler adds to the message: a speaker on success, a cross on
      failure, a warning sign on an exception. */
  datatype Reaction = Success | Failure | Warning

  /** The whole MessageCreate handler: `None` when it does nothing visible. */
  function HandleMessage(msg: Message, botId: Option<string>, outcome: SpeechOutcome): (r: Option<Reaction>)
    ensures r.Some? <==> RequestSpeech(msg, botId).Some?
    ensures r.Some? && outcome.Raised? ==> r.value == Warning
    ensures r == Some(Success) <==> RequestSpeech(msg, botId).Some? && outcome == Returned(true) && msg.guild.Some?
    ensures r == Some(Failure) <==>
      RequestSpeech(msg, botId).Some? && outcome.Returned? && (!outcome.played || msg.guild.None?)
  {
    match RequestSpeech(msg, botId)
    case None => None
    case Some(req) =>
      match outcome
      case Raised => Some(Warning)
      case Returned(played) =>
        if Tts.PlayTextToSpeech(Some(req.text), Some(req.channel), msg.guild, played) then Some(Success) else Some(Failure)
  }

  /** In a guild message, the handler's call always passes the parameter check of
      `playTextToSpeech`: the reaction is exactly the outcome of playing. */
  lemma HandlerPassesTheGuard(msg: Message, botId: Option<string>, played: bool)
    requires msg.guild.Some? && RequestSpeech(msg, botId).Some?
    ensures HandleMessage(msg, botId, Returned(played)) == Some(if played then Success else Failure)
  {
  }
}

=== FILE: ids.dfy ===
/**
 * Discord ids (snowflakes), which the bot handles as strings.
 */
module Ids {
  type GuildId = string
  type ChannelId = string
  type UserId = string
}

=== FILE: ordered_maps.dfy ===
/**
 * A JavaScript `Map`: a finite map that remembers the order in which keys were first
 * inserted, so that `Array.from(m.keys())` is well defined.
 */
module OrderedMaps {

  /** `keys` lists the keys in insertion order; `entries` holds the values. */
  datatype OMap<K(==,!new), V> = OMap(keys: seq<K>, entries: map<K, V>) {

    ghost predicate Valid() {
      && Distinct(keys)
      && (forall k :: k in entries <==> k in keys)
    }

    /** `m.size` */
    function Size(): nat {
      |keys|
    }

    /** `m.has(k)` */
    predicate Has(k: K) {
      k in entries
    }

    /** `m.get(k)` for a key that is present. */
    function Get(k: K): V
      requires Has(k)
    {
      entries[k]
    }

    /** `m.set(k, v)`: a new key goes to the end; an existing one keeps its place. */
    function Set(k: K, v: V): (m: OMap<K, V>)
      requires Valid()
      ensures m.Valid() && m.Has(k) && m.Get(k) == v
      ensures forall j :: j != k ==> (m.Has(j) <==> Has(j)) && (Has(j) ==> m.Get(j) == Get(j))
      ensures m.keys == if Has(k) then keys else keys + [k]
    {
      if k in entries then OMap(keys, entries[k := v]) else OMap(keys + [k], entries[k := v])
    }

    /** `m.delete(k)`: the other keys keep their relative order. */
    function Delete(k: K): (m: OMap<K, V>)
      requires Valid()
      ensures m.Valid() && !m.Has(k)
      ensures forall j :: j != k ==> (m.Has(j) <==> Has(j)) && (Has(j) ==> m.Get(j) == Get(j))
      ensures m.Size() == if Has(k) then Size() - 1 else Size()
      ensures m.keys == Remove(keys, k)
    {
      RemoveCount(keys, k);
      OMap(Remove(keys, k), entries - {k})
    }
  }

  /** `new Map()` */
  function Empty<K(==,!new), V>(): (m: OMap<K, V>)
    ensures m.Valid() && m.Size() == 0 && forall k :: !m.Has(k)
  {
    OMap([], map[])
  }

  ghost predicate Distinct<K>(s: seq<K>) {
    forall i, j :: 0 <= i < j < |s| ==> s[i] != s[j]
  }

  /** `s` with every occurrence of `k` taken out, the rest in order. */
  function Remove<K(==,!new)>(s: seq<K>, k: K): (r: seq<K>)
    ensures forall x :: x in r <==> x in s && x != k
    ensures Distinct(s) ==> Distinct(r)
  {
    if s == [] then []
    else if s[0] == k then Remove(s[1..], k)
    else
      var t := Remove(s[1..], k);
      assert forall i :: 0 <= i < |t| ==> t[i] in t;
      [s[0]] + t
  }

  /** In a list without repetitions, removing a key takes out exactly one element when
      the key is there. */
  lemma {:induction false} RemoveCount<K(!new)>(s: seq<K>, k: K)
    requires Distinct(s)
    ensures |Remove(s, k)| == if k in s then |s| - 1 else |s|
  {
    if s != [] {
      RemoveCount(s[1..], k);
      if s[0] == k {
        assert k !in s[1..] by {
          forall i | 0 <= i < |s[1..]| ensures s[1..][i] != k {
            assert s[1..][i] == s[i + 1];
          }
        }
      }
    }
  }

  /** Deleting the first key of a list without repetitions leaves the rest as it was. */
  lemma RemoveHead<K(!new)>(s: seq<K>)
    requires Distinct(s) && s != []
    ensures Remove(s, s[0]) == s[1..]
  {
    RemoveAbsent(s[1..], s[0]);
  }

  /** Removing the key at position `i` of a list without repetitions closes the gap and
      keeps every other key in its place relative to the rest. */
  lemma {:induction false} RemoveAt<K(!new)>(s: seq<K>, i: int)
    requires Distinct(s) && 0 <= i < |s|
    ensures Remove(s, s[i]) == s[..i] + s[i + 1..]
  {
    if i == 0 {
      RemoveHead(s);
    } else {
      var t := s[1..];
      assert t[i - 1] == s[i];
      DistinctTail(s);
      RemoveAt(t, i - 1);
      assert s[0] != s[i];
      assert s[..i] + s[i + 1..] == [s[0]] + (t[..i - 1] + t[i..]);
    }
  }

  lemma DistinctTail<K>(s: seq<K>)
    requires Distinct(s) && s != []
    ensures Distinct(s[1..])
  {
    forall i, j | 0 <= i < j < |s| - 1 ensures s[1..][i] != s[1..][j] {
      assert s[1..][i] == s[i + 1] && s[1..][j] == s[j + 1];
    }
  }

  lemma {:induction false} RemoveAbsent<K(!new)>(s: seq<K>, k: K)
    requires k !in s
    ensures Remove(s, k) == s
  {
    if s != [] {
      RemoveAbsent(s[1..], k);
    }
  }
}

=== FILE: record_command.dfy ===
/**
 * The `/record` command (commands/recording/record.js): refuse outside a server, outside
 * a voice channel or while the guild is already recording; otherwise reuse or replace the
 * guild's voice connection, wait for it to be ready, attach the speaking listener, start
 * every non-bot member already in the channel, and on failure release the connection
 * unless recording is under way.
 */
module RecordCommand {
  import opened Wrappers
  import opened Recording
  import opened Ids
  import Voice

  /** A member of the voice channel: `member.id`, `member.user.username`, `member.user.bot`. */
  datatype Member = Member(id: UserId, username: string, isBot: bool)

  /** The replies the command sends. */
  datatype Reply = NotInServer | NotInVoiceChannel | AlreadyRecordingHere | CommandStarted | FailedToStart {
    predicate Refused() {
      NotInServer? || NotInVoiceChannel? || AlreadyRecordingHere?
    }
  }

  /** The registry after the members loop, and whether a start threw and ended it. */
  datatype Run = Run(reg: Registry, threw: bool)

  /** `voiceChannel.members.forEach(...)`: each non-bot member in turn is started at its own
      time in `clock`; a member whose subscription throws (`unsubscribable`) ends the loop,
      the exception leaving `forEach`. */
  function StartMembers(reg: Registry, g: GuildId, members: seq<Member>, clock: seq<nat>, unsubscribable: set<UserId>): (r: Run)
    requires ValidRegistry(reg) && |clock| == |members|
    ensures ValidRegistry(r.reg)
  {
    if members == [] then Run(reg, false)
    else
      var n := |members| - 1;
      StartOne(StartMembers(reg, g, members[..n], clock[..n], unsubscribable), g, members[n], clock[n], unsubscribable)
  }

  /** One visit of the `forEach` callback: nothing after a throw or for a bot; otherwise
      the member is started, and the run has thrown if subscribing threw. */
  function StartOne(prev: Run, g: GuildId, m: Member, now: nat, unsubscribable: set<UserId>): (r: Run)
    requires ValidRegistry(prev.reg)
    ensures ValidRegistry(r.reg)
  {
    if prev.threw || m.isBot then prev
    else
      var subscribeOk := m.id !in unsubscribable;
      Run(AfterStart(prev.reg, g, m.id, StreamEntry(m.username, now), subscribeOk),
          !IsTracked(prev.reg, g, m.id) && !subscribeOk)
  }

  lemma StartMembersStep(reg: Registry, g: GuildId, members: seq<Member>, clock: seq<nat>, unsubscribable: set<UserId>, i: nat)
    requires ValidRegistry(reg) && |clock| == |members| && i < |members|
    ensures StartMembers(reg, g, members[..i + 1], clock[..i + 1], unsubscribable)
         == StartOne(StartMembers(reg, g, members[..i], clock[..i], unsubscribable), g, members[i], clock[i], unsubscribable)
  {
    assert members[..i + 1][..i] == members[..i] && clock[..i + 1][..i] == clock[..i];
  }

  /** The loop touches only guild `g`, and an entry already there keeps its name and time. */
  lemma {:induction false} StartMembersKeepsOthers(reg: Registry, g: GuildId, members: seq<Member>, clock: seq<nat>, unsubscribable: set<UserId>)
    requires ValidRegistry(reg) && |clock| == |members|
    ensures var r := StartMembers(reg, g, members, clock, unsubscribable).reg;
      && r - {g} == reg - {g}
      && (forall u :: IsTracked(reg, g, u) ==> IsTracked(r, g, u) && r[g].Get(u) == reg[g].Get(u))
  {
    if members != [] {
      var n := |members| - 1;
      StartMembersKeepsOthers(reg, g, members[..n], clock[..n], unsubscribable);
    }
  }

  /** When no start throws, every non-bot member of the channel is being recorded
      afterwards. */
  lemma {:induction false} StartMembersRecordsNonBots(reg: Registry, g: GuildId, members: seq<Member>, clock: seq<nat>, unsubscribable: set<UserId>)
    requires ValidRegistry(reg) && |clock| == |members|
    ensures var r := StartMembers(reg, g, members, clock, unsubscribable);
      !r.threw ==> forall i :: 0 <= i < |members| && !members[i].isBot ==> IsTracked(r.reg, g, members[i].id)
  {
    if members != [] {
      var n := |members| - 1;
      StartMembersRecordsNonBots(reg, g, members[..n], clock[..n], unsubscribable);
      var r := StartMembers(reg, g, members, clock, unsubscribable);
      if !r.threw {
        forall i | 0 <= i < |members| && !members[i].isBot
          ensures IsTracked(r.reg, g, members[i].id)
        {
          if i < n {
            assert members[..n][i] == members[i];
          }
        }
      }
    }
  }

  /** Every user the loop adds is a non-bot member of the channel, stored with that
      member's name and start time: bots are never started. */
  lemma {:induction false} StartMembersAddsOnlyNonBots(reg: Registry, g: GuildId, members: seq<Member>, clock: seq<nat>, unsubscribable: set<UserId>, u: UserId)
    requires ValidRegistry(reg) && |clock| == |members|
    requires IsTracked(StartMembers(reg, g, members, clock, unsubscribable).reg, g, u) && !IsTracked(reg, g, u)
    ensures exists i :: (0 <= i < |members| && members[i].id == u && !members[i].isBot
      && StartMembers(reg, g, members, clock, unsubscribable).reg[g].Get(u) == StreamEntry(members[i].username, clock[i]))
  {
    var n := |members| - 1;
    var prev := StartMembers(reg, g, members[..n], clock[..n], unsubscribable);
    var r := StartMembers(reg, g, members, clock, unsubscribable);
    if IsTracked(prev.reg, g, u) {
      StartMembersAddsOnlyNonBots(reg, g, members[..n], clock[..n], unsubscribable, u);
      var i :| (0 <= i < n && members[..n][i].id == u && !members[..n][i].isBot
        && prev.reg[g].Get(u) == StreamEntry(members[..n][i].username, clock[..n][i]));
      assert members[..n][i] == members[i] && clock[..n][i] == clock[i];
      assert r.reg[g].Get(u) == prev.reg[g].Get(u);
    } else {
      assert members[n].id == u && !members[n].isBot;
    }
  }

  function LiveOf(voice: Voice.VoiceConnections, guild: Option<GuildId>): set<Voice.Connection>
    reads voice
  {
    if guild.Some? then voice.Live(guild.value) else {}
  }

  /** The `forEach` over the channel's members. */
  method StartChannelMembers(rec: Recorder, g: GuildId, members: seq<Member>, clock: seq<nat>, unsubscribable: set<UserId>)
    returns (threw: bool)
    requires rec.Valid() && |clock| == |members|
    modifies rec
    ensures rec.Valid()
    ensures Run(rec.activeStreams, threw) == StartMembers(old(rec.activeStreams), g, members, clock, unsubscribable)
  {
    threw := false;
    var i := 0;
    while i < |members| && !threw
      invariant 0 <= i <= |members| && rec.Valid()
      invariant Run(rec.activeStreams, threw) == StartMembers(old(rec.activeStreams), g, members[..i], clock[..i], unsubscribable)
    {
      var m := members[i];
      StartMembersStep(old(rec.activeStreams), g, members, clock, unsubscribable, i);
      if !m.isBot {
        var outcome := rec.StartUserRecording(g, m.id, m.username, clock[i], m.id !in unsubscribable);
        threw := outcome == SubscribeFailed;
      }
      i := i + 1;
    }
    if threw {
      ThrowEndsTheLoop(old(rec.activeStreams), g, members, clock, unsubscribable, i);
    } else {
      assert members[..i] == members && clock[..i] == clock;
    }
  }

  /** Once a start has thrown, the members after it are never visited. */
  lemma {:induction false} ThrowEndsTheLoop(reg: Registry, g: GuildId, members: seq<Member>, clock: seq<nat>, unsubscribable: set<UserId>, k: nat)
    requires ValidRegistry(reg) && |clock| == |members| && k <= |members|
    requires StartMembers(reg, g, members[..k], clock[..k], unsubscribable).threw
    ensures StartMembers(reg, g, members, clock, unsubscribable) == StartMembers(reg, g, members[..k], clock[..k], unsubscribable)
  {
    if k == |members| {
      assert members[..k] == members && clock[..k] == clock;
    } else {
      var n := |members| - 1;
      assert members[..n][..k] == members[..k] && clock[..n][..k] == clock[..k];
      ThrowEndsTheLoop(reg, g, members[..n], clock[..n], unsubscribable, k);
    }
  }

  /** `execute(interaction)` of `/record`. `guild` is `interaction.guild.id`,
      `voiceChannel` the id of the caller's voice channel and `members` that channel's
      members. Inputs stand for the outside world: `clock` gives `Date.now()` for each
      member, `becomesReady` whether a connection that is not ready reaches `Ready` within
      30 s, and `unsubscribable` the users whose `receiver.subscribe` throws. `conn` names
      the connection the command prepared, if it got that far. */
  method Execute(rec: Recorder, voice: Voice.VoiceConnections, guild: Option<GuildId>, voiceChannel: Option<ChannelId>,
                 members: seq<Member>, clock: seq<nat>, becomesReady: bool, unsubscribable: set<UserId>)
    returns (reply: Reply, ghost conn: Option<Voice.Connection>)
    requires rec.Valid() && voice.Valid() && |clock| == |members|
    modifies rec, voice, LiveOf(voice, guild)
    ensures rec.Valid() && voice.Valid()
    ensures guild.None? ==> reply == NotInServer
    ensures guild.Some? && voiceChannel.None? ==> reply == NotInVoiceChannel
    ensures guild.Some? && voiceChannel.Some? && IsRecording(old(rec.activeStreams), guild.value) ==> reply == AlreadyRecordingHere
    ensures reply.Refused() <==>
      guild.None? || voiceChannel.None? || IsRecording(old(rec.activeStreams), guild.value)
    ensures reply.Refused() <==> conn.None?
    ensures conn.Some? ==> conn.value.guildId == guild.value && conn.value.channelId == voiceChannel.value
    // the prepared connection is the one kept when the command goes ahead
    ensures reply == CommandStarted ==> guild.value in voice.tracked && voice.tracked[guild.value] == conn.value
    // on failure it is destroyed, and the bot leaves the channel, unless some user is recording
    ensures reply == FailedToStart ==>
      && (conn.value.status == Voice.Destroyed <==> !IsRecording(rec.activeStreams, guild.value))
      && (guild.value in voice.tracked ==> voice.tracked[guild.value] == conn.value)
    ensures reply.Refused() ==>
      rec.activeStreams == old(rec.activeStreams) && voice.tracked == old(voice.tracked) && unchanged(old(LiveOf(voice, guild)))
    ensures !reply.Refused() ==>
      var g, ch := guild.value, voiceChannel.value;
      var previous := old(voice.Get(g));
      var reused := previous.Some? && previous.value.channelId == ch;
      var ready := becomesReady || (reused && old(previous.value.status) == Voice.Ready);
      var run := StartMembers(old(rec.activeStreams), g, members, clock, unsubscribable);
      && guild.Some? && voiceChannel.Some? && !IsRecording(old(rec.activeStreams), g)
      // a leftover connection to another channel is destroyed
      && (previous.Some? && !reused ==> previous.value.status == Voice.Destroyed)
      // the members are started once the connection is ready
      && rec.activeStreams == (if ready then run.reg else old(rec.activeStreams))
      && (reply == CommandStarted <==> ready && !run.threw)
      && (reply == CommandStarted ==>
            && g in voice.tracked && voice.tracked[g].channelId == ch
            && voice.tracked[g].status == Voice.Ready && voice.tracked[g].listening
            && (reused ==> voice.tracked[g] == previous.value)
            && (!reused ==> fresh(voice.tracked[g])))
      // on failure the connection is kept exactly when the guild is recording
      && (reply == FailedToStart ==> (g in voice.tracked <==> IsRecording(rec.activeStreams, g)))
      && voice.tracked - {g} == old(voice.tracked) - {g}
  {
    conn := None;
    if guild.None? {
      return NotInServer, conn;
    }
    if voiceChannel.None? {
      return NotInVoiceChannel, conn;
    }
    var g, ch := guild.value, voiceChannel.value;
    var recording := rec.IsGuildRecording(g);
    if recording {
      return AlreadyRecordingHere, conn;
    }
    var c, ready := PrepareConnection(voice, g, ch, becomesReady);
    conn := Some(c);
    var failed := !ready;
    if !failed {
      voice.Listen(c);
      failed := StartChannelMembers(rec, g, members, clock, unsubscribable);
    }
    if failed {
      ReleaseAfterFailure(rec, voice, g, c);
      return FailedToStart, conn;
    }
    return CommandStarted, conn;
  }

  /** The clean-up when `/record` fails after preparing `c`: a connection that is not yet
      destroyed is destroyed, and the bot leaves the channel, unless some user of the guild
      is recording. */
  method ReleaseAfterFailure(rec: Recorder, voice: Voice.VoiceConnections, g: GuildId, c: Voice.Connection)
    requires rec.Valid() && voice.Valid()
    requires g in voice.tracked && voice.tracked[g] == c
    modifies voice, c
    ensures voice.Valid()
    ensures c.status == Voice.Destroyed <==> !IsRecording(rec.activeStreams, g)
    ensures g in voice.tracked <==> IsRecording(rec.activeStreams, g)
    ensures g in voice.tracked ==> voice.tracked[g] == c
    ensures voice.tracked - {g} == old(voice.tracked) - {g}
    ensures c.listening == old(c.listening)
  {
    if c.status != Voice.Destroyed {
      var stillRecording := rec.IsGuildRecording(g);
      if !stillRecording {
        var _ := voice.Destroy(c);
      }
    }
  }

  /** The connection part of `/record`: a live connection to another channel is destroyed
      and a new one joined; one to the same channel is reused. A connection that is not
      ready is waited for; `ready` says whether that succeeded. */
  method PrepareConnection(voice: Voice.VoiceConnections, g: GuildId, ch: ChannelId, becomesReady: bool)
    returns (c: Voice.Connection, ready: bool)
    requires voice.Valid()
    modifies voice, voice.Live(g)
    ensures voice.Valid()
    ensures var previous := old(voice.Get(g));
      var reused := previous.Some? && previous.value.channelId == ch;
      && (reused ==> c == previous.value)
      && (!reused ==> fresh(c) && !c.listening)
      && (previous.Some? && !reused ==> previous.value.status == Voice.Destroyed)
      && ready == (becomesReady || (reused && old(previous.value.status) == Voice.Ready))
    ensures c.guildId == g && c.channelId == ch
    ensures c.status == Voice.Ready <==> ready
    ensures c.status != Voice.Destroyed
    ensures g in voice.tracked && voice.tracked[g] == c
    ensures voice.tracked - {g} == old(voice.tracked) - {g}
  {
    var connection := voice.Get(g);
    if connection.Some? && connection.value.channelId != ch {
      var _ := voice.Destroy(connection.value);
      connection := None;
    }
    if connection.None? {
      c := voice.Join(g, ch);
      ready := voice.AwaitReady(c, becomesReady);
    } else {
      c := connection.value;
      ready := true;
      if c.status != Voice.Ready {
        ready := voice.AwaitReady(c, becomesReady);
      }
    }
  }

  /** The listener `/record` attaches to `connection.receiver.speaking`: on a 'start' event
      for `u`, the member is fetched (`fetched` is the username, or `None` when the fetch
      fails or yields nothing) and, if found, that user is started at time `now`. */
  method OnSpeakingStart(rec: Recorder, connection: Voice.Connection, u: UserId, fetched: Option<string>, now: nat, subscribeOk: bool)
    requires rec.Valid() && connection.listening
    modifies rec
    ensures rec.Valid()
    ensures rec.activeStreams == if fetched.Some?
      then AfterStart(old(rec.activeStreams), connection.guildId, u, StreamEntry(fetched.value, now), subscribeOk)
      else old(rec.activeStreams)
  {
    if fetched.Some? {
      var _ := rec.StartUserRecording(connection.guildId, u, fetched.value, now, subscribeOk);
    }
  }
}

=== FILE: recording.dfy ===
/**
 * The recording registry of recording-logic.js: `activeStreams`, a map from guild to a
 * map from user to the name and start time of that user's capture, and the operations
 * that start one user, stop one user, stop a whole guild and ask whether a guild is
 * recording.
 *
 * Audio plumbing (the receiver subscription, the PassThrough stream, ffmpeg) is outside
 * the model: whether `receiver.subscribe` throws and whether ffmpeg succeeds for a user
 * are inputs, and `Date.now()` is a parameter.
 */
module Recording {
  import opened Wrappers
  import opened Strings
  import opened OrderedMaps
  import opened Ids
  import Voice

  /** What the registry keeps for one captured user: the parts of the output file name. */
  datatype StreamEntry = StreamEntry(username: string, timestamp: nat)

  /** One guild's map from user to entry, in insertion order. */
  type GuildStreams = OMap<UserId, StreamEntry>

  /** `activeStreams` */
  type Registry = map<GuildId, GuildStreams>

  ghost predicate ValidRegistry(reg: Registry) {
    forall g :: g in reg ==> reg[g].Valid()
  }

  /** `activeStreams.get(g)?.has(u)` */
  predicate IsTracked(reg: Registry, g: GuildId, u: UserId) {
    g in reg && reg[g].Has(u)
  }

  /** `isGuildRecording(g)`: the guild has a map and it is not empty. */
  predicate IsRecording(reg: Registry, g: GuildId) {
    g in reg && reg[g].Size() > 0
  }

  /** The guild's map, created empty if it does not exist yet. */
  function GuildOrNew(reg: Registry, g: GuildId): (gs: GuildStreams)
    requires ValidRegistry(reg)
    ensures gs.Valid()
  {
    if g in reg then reg[g] else Empty()
  }

  /** The registry after `startUserRecording(g, u, ...)` with entry `e`: the guild's map is
      created if missing; a user already present is left alone; otherwise the user is added
      unless subscribing to the user's audio failed. */
  function AfterStart(reg: Registry, g: GuildId, u: UserId, e: StreamEntry, subscribeOk: bool): (r: Registry)
    requires ValidRegistry(reg)
    ensures ValidRegistry(r)
  {
    if IsTracked(reg, g, u) then reg
    else if subscribeOk then reg[g := GuildOrNew(reg, g).Set(u, e)]
    else reg[g := GuildOrNew(reg, g)]
  }

  /** The registry after `stopUserRecording(g, u)`: the user is deleted from the guild's
      map; the guild's map itself stays, even when it becomes empty. */
  function AfterStop(reg: Registry, g: GuildId, u: UserId): (r: Registry)
    requires ValidRegistry(reg)
    ensures ValidRegistry(r)
  {
    if IsTracked(reg, g, u) then reg[g := reg[g].Delete(u)] else reg
  }

  /** `path.join(recordingsDir, `${guildId}-${username}-${timestamp}.mp3`)`, for a
      `recordingsDir` without a trailing separator. */
  function OutputPath(dir: string, g: GuildId, e: StreamEntry): (p: string)
    ensures IsPrefix(dir + "/" + g + "-" + e.username + "-", p) && EndsWith(p, ".mp3")
  {
    dir + "/" + g + "-" + e.username + "-" + ShowNat(e.timestamp) + ".mp3"
  }

  /** The files `stopGuildRecording` reports: for the snapshot of user ids, in order, the
      output path of each user whose transcode succeeds. */
  function SavedPaths(dir: string, g: GuildId, snapshot: GuildStreams, users: seq<UserId>, failed: set<UserId>): (r: seq<string>)
    requires forall u :: u in users ==> snapshot.Has(u)
    ensures |r| <= |users|
  {
    if users == [] then []
    else
      var n := |users| - 1;
      SavedPaths(dir, g, snapshot, users[..n], failed)
        + (if users[n] in failed then [] else [OutputPath(dir, g, snapshot.Get(users[n]))])
  }

  /** Stopping the first user of the guild's map leaves the users after it. */
  lemma StopHead(reg: Registry, g: GuildId, users: seq<UserId>, i: nat)
    requires ValidRegistry(reg) && g in reg
    requires i < |users| && reg[g].keys == users[i..]
    ensures IsTracked(reg, g, users[i])
    ensures var r := AfterStop(reg, g, users[i]);
      && g in r && r[g].keys == users[i + 1..] && r - {g} == reg - {g}
  {
    assert users[i] == reg[g].keys[0];
    RemoveHead(reg[g].keys);
    assert users[i..][1..] == users[i + 1..];
  }

  lemma SavedPathsStep(dir: string, g: GuildId, snapshot: GuildStreams, users: seq<UserId>, failed: set<UserId>, i: nat)
    requires forall u :: u in users ==> snapshot.Has(u)
    requires i < |users|
    ensures SavedPaths(dir, g, snapshot, users[..i + 1], failed)
         == SavedPaths(dir, g, snapshot, users[..i], failed)
            + (if users[i] in failed then [] else [OutputPath(dir, g, snapshot.Get(users[i]))])
  {
    assert users[..i + 1][..i] == users[..i];
  }

  /** What a call of `startUserRecording` did. `SubscribeFailed` stands for an exception
      thrown by `receiver.subscribe`. */
  datatype StartOutcome = AlreadyRecording | Started | SubscribeFailed

  /** What the promise of `stopUserRecording` settles to: `null` when there was nothing to
      stop, the output path when ffmpeg finished, a rejection when ffmpeg failed. */
  datatype StopOutcome = NothingToStop | Saved(path: string) | TranscodeFailed

  /** The exception `connection.destroy()` raises on a connection already destroyed. */
  datatype StopError = ConnectionAlreadyDestroyed

  class Recorder {
    const recordingsDir: string
    var activeStreams: Registry

    ghost predicate Valid()
      reads this
    {
      ValidRegistry(activeStreams)
    }

    constructor (dir: string)
      ensures Valid() && recordingsDir == dir && activeStreams == map[]
    {
      recordingsDir := dir;
      activeStreams := map[];
    }

    /** `isGuildRecording(guildId)` */
    method IsGuildRecording(g: GuildId) returns (b: bool)
      ensures b <==> IsRecording(activeStreams, g)
    {
      b := g in activeStreams && activeStreams[g].Size() > 0;
    }

    /** `startUserRecording(connection, userId, username)` on a connection of guild `g`,
        at time `now`; `subscribeOk` is false when `receiver.subscribe` throws. */
    method StartUserRecording(g: GuildId, u: UserId, username: string, now: nat, subscribeOk: bool)
      returns (outcome: StartOutcome)
      requires Valid()
      modifies this
      ensures Valid()
      ensures outcome == AlreadyRecording <==> IsTracked(old(activeStreams), g, u)
      ensures outcome == Started <==> !IsTracked(old(activeStreams), g, u) && subscribeOk
      ensures activeStreams == AfterStart(old(activeStreams), g, u, StreamEntry(username, now), subscribeOk)
    {
      if g !in activeStreams {
        activeStreams := activeStreams[g := Empty()];
      }
      var guildStreams := activeStreams[g];
      if guildStreams.Has(u) {
        return AlreadyRecording;
      }
      if !subscribeOk {
        return SubscribeFailed;
      }
      activeStreams := activeStreams[g := guildStreams.Set(u, StreamEntry(username, now))];
      return Started;
    }

    /** `stopUserRecording(guildId, userId)`; `transcodeOk` is ffmpeg's outcome for this
        user. The entry is deleted before the conversion is awaited. */
    method StopUserRecording(g: GuildId, u: UserId, transcodeOk: bool) returns (r: StopOutcome)
      requires Valid()
      modifies this
      ensures Valid()
      ensures activeStreams == AfterStop(old(activeStreams), g, u)
      ensures r.NothingToStop? <==> !IsTracked(old(activeStreams), g, u)
      ensures r.Saved? <==> IsTracked(old(activeStreams), g, u) && transcodeOk
      ensures r.Saved? ==> r.path == OutputPath(recordingsDir, g, old(activeStreams)[g].Get(u))
    {
      if g !in activeStreams || !activeStreams[g].Has(u) {
        return NothingToStop;
      }
      var entry := activeStreams[g].Get(u);
      activeStreams := activeStreams[g := activeStreams[g].Delete(u)];
      var outputFilename := OutputPath(recordingsDir, g, entry);
      if transcodeOk {
        r := Saved(outputFilename);
      } else {
        r := TranscodeFailed;
      }
    }

    /** The 'error' handler of a user's audio stream: the same per-user stop. The handler
        drops the promise without a `.catch`, so `TranscodeFailed` here is a rejection that
        nobody handles. */
    method OnStreamError(g: GuildId, u: UserId, transcodeOk: bool) returns (r: StopOutcome)
      requires Valid()
      modifies this
      ensures Valid()
      ensures activeStreams == AfterStop(old(activeStreams), g, u)
      ensures r.NothingToStop? <==> !IsTracked(old(activeStreams), g, u)
      ensures r.Saved? <==> IsTracked(old(activeStreams), g, u) && transcodeOk
      ensures r.TranscodeFailed? <==> IsTracked(old(activeStreams), g, u) && !transcodeOk
      ensures r.Saved? ==> r.path == OutputPath(recordingsDir, g, old(activeStreams)[g].Get(u))
    {
      r := StopUserRecording(g, u, transcodeOk);
    }

    /** `userIds.map(userId => stopUserRecording(...).catch(() => null))`, awaited with
        `Promise.all` and filtered for non-null: stops every user of the snapshot `users`
        and collects the paths of the successful conversions, in snapshot order. */
    method StopEach(g: GuildId, users: seq<UserId>, failed: set<UserId>) returns (saved: seq<string>)
      requires Valid()
      requires g in activeStreams && activeStreams[g].keys == users
      modifies this
      ensures Valid()
      ensures g in activeStreams && activeStreams[g].Size() == 0
      ensures activeStreams - {g} == old(activeStreams) - {g}
      ensures saved == SavedPaths(recordingsDir, g, old(activeStreams)[g], users, failed)
    {
      ghost var snapshot := activeStreams[g];
      saved := [];
      var i := 0;
      while i < |users|
        invariant 0 <= i <= |users|
        invariant Valid()
        invariant g in activeStreams && activeStreams - {g} == old(activeStreams) - {g}
        invariant activeStreams[g].keys == users[i..]
        invariant forall u :: activeStreams[g].Has(u) ==> activeStreams[g].Get(u) == snapshot.Get(u)
        invariant saved == SavedPaths(recordingsDir, g, snapshot, users[..i], failed)
      {
        StopHead(activeStreams, g, users, i);
        SavedPathsStep(recordingsDir, g, snapshot, users, failed, i);
        var outcome := StopUserRecording(g, users[i], users[i] !in failed);
        if outcome.Saved? {
          saved := saved + [outcome.path];
        }
        i := i + 1;
      }
      assert users[..i] == users;
    }

    /** `stopGuildRecording(guildId)`. Users in `failed` are those whose ffmpeg run fails.
        The per-user stops that `Promise.all` runs together are run one after the other:
        each deletes its entry before its first suspension, so the registry passes through
        the same states. `destroyedMeanwhile` says that another handler destroyed the
        guild's connection while the conversions were awaited, so that the final
        `connection.destroy()` throws. */
    method StopGuildRecording(voice: Voice.VoiceConnections, g: GuildId, failed: set<UserId>, destroyedMeanwhile: bool)
      returns (r: Result<seq<string>, StopError>)
      requires Valid() && voice.Valid()
      modifies this, voice, voice.Live(g)
      ensures Valid() && voice.Valid()
      ensures !IsRecording(activeStreams, g)
      ensures !IsRecording(old(activeStreams), g) ==> activeStreams == old(activeStreams) && r == Ok([])
      ensures IsRecording(old(activeStreams), g) ==>
        && activeStreams == old(activeStreams) - {g}
        && r == if old(voice.Get(g)).Some? && destroyedMeanwhile then Err(ConnectionAlreadyDestroyed)
                else Ok(SavedPaths(recordingsDir, g, old(activeStreams)[g], old(activeStreams)[g].keys, failed))
      ensures old(voice.Get(g)).Some? ==> old(voice.Get(g)).value.status == Voice.Destroyed
      ensures voice.tracked == old(voice.tracked) - {g}
    {
      var connection := voice.Get(g);
      if g !in activeStreams || activeStreams[g].Size() == 0 {
        if connection.Some? {
          var _ := voice.Destroy(connection.value);
        }
        return Ok([]);
      }
      var saved := StopEach(g, activeStreams[g].keys, failed);
      activeStreams := activeStreams - {g};
      if connection.Some? {
        if destroyedMeanwhile {
          var _ := voice.Destroy(connection.value);
        }
        var ok := voice.Destroy(connection.value);
        if !ok {
          return Err(ConnectionAlreadyDestroyed);
        }
      }
      return Ok(saved);
    }
  }
}

=== FILE: recording_lemmas.dfy ===
/**
 * Properties of the recording registry: what starting and stopping a user does to
 * `activeStreams`, what `isGuildRecording` then reports, how output paths are formed,
 * and which paths `stopGuildRecording` reports.
 */
module RecordingLemmas {
  import opened Strings
  import opened OrderedMaps
  import opened Ids
  import opened Recording

  /** A guild is recording exactly when some user of it is being recorded. */
  lemma RecordingIffSomeUser(reg: Registry, g: GuildId)
    requires ValidRegistry(reg)
    ensures IsRecording(reg, g) ==> IsTracked(reg, g, reg[g].keys[0])
    ensures forall u :: IsTracked(reg, g, u) ==> IsRecording(reg, g)
  {
    if IsRecording(reg, g) {
      assert reg[g].keys[0] in reg[g].keys;
    }
    forall u | IsTracked(reg, g, u) ensures IsRecording(reg, g) {
      assert u in reg[g].keys;
    }
  }

  /** A repeated start of a user already recorded changes nothing, whatever name and time
      it carries: the stored entry is the first one. */
  lemma StartIsIdempotent(reg: Registry, g: GuildId, u: UserId, e: StreamEntry, e': StreamEntry, subscribeOk: bool)
    requires ValidRegistry(reg)
    ensures var once := AfterStart(reg, g, u, e, true);
      AfterStart(once, g, u, e', subscribeOk) == once
  {
  }

  /** Starting a user not yet recorded (whose subscription succeeds) adds exactly that user,
      with the given name and time, to the guild's map, creating the map if needed; every
      other guild and user is as before, and the guild is then recording. */
  lemma StartAddsExactlyOne(reg: Registry, g: GuildId, u: UserId, e: StreamEntry)
    requires ValidRegistry(reg) && !IsTracked(reg, g, u)
    ensures var r := AfterStart(reg, g, u, e, true);
      && IsTracked(r, g, u) && r[g].Get(u) == e
      && r[g].Size() == GuildOrNew(reg, g).Size() + 1
      && r[g].keys == GuildOrNew(reg, g).keys + [u]
      && r.Keys == reg.Keys + {g}
      && IsRecording(r, g)
      && (forall g', u' :: g' != g || u' != u ==> (IsTracked(r, g', u') <==> IsTracked(reg, g', u')))
      && (forall g', u' :: IsTracked(reg, g', u') ==> r[g'].Get(u') == reg[g'].Get(u'))
  {
  }

  /** When subscribing throws, the guild's map has already been created, but no user is
      added and whether the guild is recording does not change. */
  lemma FailedSubscribeAddsNoUser(reg: Registry, g: GuildId, u: UserId, e: StreamEntry)
    requires ValidRegistry(reg)
    ensures var r := AfterStart(reg, g, u, e, false);
      && g in r
      && (forall g', u' :: IsTracked(r, g', u') <==> IsTracked(reg, g', u'))
      && (IsRecording(r, g) <==> IsRecording(reg, g))
  {
  }

  /** Stopping a recorded user removes exactly that user; the guild's map stays in the
      registry, one entry smaller, and nothing else changes. */
  lemma StopRemovesExactlyOne(reg: Registry, g: GuildId, u: UserId)
    requires ValidRegistry(reg) && IsTracked(reg, g, u)
    ensures var r := AfterStop(reg, g, u);
      && !IsTracked(r, g, u)
      && g in r && r.Keys == reg.Keys
      && r[g].Size() == reg[g].Size() - 1
      && (forall g', u' :: g' != g || u' != u ==> (IsTracked(r, g', u') <==> IsTracked(reg, g', u')))
      && (forall g', u' :: IsTracked(r, g', u') ==> r[g'].Get(u') == reg[g'].Get(u'))
  {
  }

  /** Stopping the last user of a guild leaves an empty map behind, and an empty map
      counts as not recording. */
  lemma StopLastUserLeavesEmptyGuild(reg: Registry, g: GuildId, u: UserId)
    requires ValidRegistry(reg) && IsTracked(reg, g, u) && reg[g].Size() == 1
    ensures var r := AfterStop(reg, g, u);
      g in r && r[g].Size() == 0 && !IsRecording(r, g)
  {
  }

  /** Starting a user not yet recorded and then stopping that user gives back the
      registry, except that the guild's (possibly empty) map now exists. */
  lemma StartThenStop(reg: Registry, g: GuildId, u: UserId, e: StreamEntry)
    requires ValidRegistry(reg) && !IsTracked(reg, g, u)
    ensures AfterStop(AfterStart(reg, g, u, e, true), g, u) == reg[g := GuildOrNew(reg, g)]
  {
    var gs := GuildOrNew(reg, g);
    SetThenDelete(gs, u, e);
    assert AfterStart(reg, g, u, e, true) == reg[g := gs.Set(u, e)];
  }

  /** Inserting a new user into a guild's map and deleting it again gives back the map. */
  lemma SetThenDelete(gs: GuildStreams, u: UserId, e: StreamEntry)
    requires gs.Valid() && !gs.Has(u)
    ensures gs.Set(u, e).Delete(u) == gs
  {
    assert u !in gs.keys;
    RemoveLast(gs.keys, u);
    assert gs.Set(u, e).Delete(u).entries == gs.entries;
  }

  /** Appending a new key and removing it again gives back the list. */
  lemma RemoveLast<K(!new)>(s: seq<K>, k: K)
    requires k !in s
    ensures Remove(s + [k], k) == s
  {
    if s != [] {
      assert (s + [k])[1..] == s[1..] + [k];
      RemoveLast(s[1..], k);
    }
  }

  /** Guild ids are snowflakes (digit strings), so the output path determines the guild,
      the user name and the start time: two captures share a file only if all three
      agree. */
  lemma OutputPathInjective(dir: string, g1: GuildId, e1: StreamEntry, g2: GuildId, e2: StreamEntry)
    requires AllDigits(g1) && AllDigits(g2)
    requires OutputPath(dir, g1, e1) == OutputPath(dir, g2, e2)
    ensures g1 == g2 && e1 == e2
  {
    PathPartsInjective(dir, g1, e1.username, ShowNat(e1.timestamp), g2, e2.username, ShowNat(e2.timestamp));
    ShowNatInjective(e1.timestamp, e2.timestamp);
  }

  /** The digit-string parts of `dir/g-u-t.mp3` and the name between them are determined
      by the path. */
  lemma PathPartsInjective(dir: string, g1: string, u1: string, t1: string, g2: string, u2: string, t2: string)
    requires AllDigits(g1) && AllDigits(g2) && AllDigits(t1) && AllDigits(t2)
    requires dir + "/" + g1 + "-" + u1 + "-" + t1 + ".mp3" == dir + "/" + g2 + "-" + u2 + "-" + t2 + ".mp3"
    ensures g1 == g2 && u1 == u2 && t1 == t2
  {
    var p := dir + "/" + g1 + "-" + u1 + "-" + t1 + ".mp3";
    var d := |dir| + 1;
    PathLayout(dir, g1, u1, t1);
    PathLayout(dir, g2, u2, t2);
    if |g1| < |g2| {
      assert false;
    }
    if |g2| < |g1| {
      assert false;
    }
    assert g1 == p[d..d + |g1|] == g2;
    if |t1| < |t2| {
      assert false;
    }
    if |t2| < |t1| {
      assert false;
    }
    assert t1 == p[|p| - 4 - |t1|..|p| - 4] == t2;
    var m := d + |g1| + 1;
    assert u1 == p[m..m + |u1|] == u2;
  }

  /** Where each part sits in `dir/g-u-t.mp3`. */
  lemma PathLayout(dir: string, g: string, u: string, t: string)
    ensures var p := dir + "/" + g + "-" + u + "-" + t + ".mp3";
      var d := |dir| + 1;
      && |p| == d + |g| + |u| + |t| + 6
      && p[d..d + |g|] == g
      && p[d + |g|] == '-'
      && (forall i :: 0 <= i < |g| ==> p[d + i] == g[i])
      && p[d + |g| + 1..d + |g| + 1 + |u|] == u
      && p[|p| - 5 - |t|] == '-'
      && p[|p| - 4 - |t|..|p| - 4] == t
      && (forall i :: 0 <= i < |t| ==> p[|p| - 4 - |t| + i] == t[i])
  {
    var p := dir + "/" + g + "-" + u + "-" + t + ".mp3";
    var d := |dir| + 1;
    assert p == (dir + "/") + g + ("-" + u + "-") + t + ".mp3";
  }

  /** The path of the `i`-th snapshot user, whose conversion succeeded, is `p`. */
  predicate SavedAt(dir: string, g: GuildId, snapshot: GuildStreams, users: seq<UserId>, failed: set<UserId>, i: int, p: string)
    requires forall u :: u in users ==> snapshot.Has(u)
  {
    0 <= i < |users| && users[i] !in failed && p == OutputPath(dir, g, snapshot.Get(users[i]))
  }

  /** The paths of the snapshot users whose conversion succeeded, and only those. A
      failure of one user never removes another user's path. */
  lemma {:induction false} SavedPathsMembers(dir: string, g: GuildId, snapshot: GuildStreams, users: seq<UserId>, failed: set<UserId>, p: string)
    requires forall u :: u in users ==> snapshot.Has(u)
    ensures p in SavedPaths(dir, g, snapshot, users, failed) <==>
      exists i :: SavedAt(dir, g, snapshot, users, failed, i, p)
  {
    if users != [] {
      var n := |users| - 1;
      var pre := users[..n];
      SavedPathsMembers(dir, g, snapshot, pre, failed, p);
      SavedPathsStep(dir, g, snapshot, users, failed, n);
      assert users[..n + 1] == users;
      if p in SavedPaths(dir, g, snapshot, users, failed) {
        if p in SavedPaths(dir, g, snapshot, pre, failed) {
          var i :| SavedAt(dir, g, snapshot, pre, failed, i, p);
          assert SavedAt(dir, g, snapshot, users, failed, i, p);
        } else {
          assert SavedAt(dir, g, snapshot, users, failed, n, p);
        }
      }
      if exists i :: SavedAt(dir, g, snapshot, users, failed, i, p) {
        var i :| SavedAt(dir, g, snapshot, users, failed, i, p);
        if i < n {
          assert SavedAt(dir, g, snapshot, pre, failed, i, p);
        }
      }
    }
  }

  /** The users of `users` whose conversion fails. */
  function FailedAmong(users: seq<UserId>, failed: set<UserId>): set<UserId> {
    set u | u in users && u in failed
  }

  /** For a snapshot without repeated ids, exactly one path is reported per user whose
      conversion succeeds: so the result is never longer than the snapshot. */
  lemma {:induction false} SavedPathsCount(dir: string, g: GuildId, snapshot: GuildStreams, users: seq<UserId>, failed: set<UserId>)
    requires forall u :: u in users ==> snapshot.Has(u)
    requires Distinct(users)
    ensures |SavedPaths(dir, g, snapshot, users, failed)| == |users| - |FailedAmong(users, failed)|
    ensures |SavedPaths(dir, g, snapshot, users, failed)| <= |users|
  {
    if users == [] {
      assert FailedAmong(users, failed) == {};
    } else {
      var n := |users| - 1;
      var pre := users[..n];
      assert Distinct(pre) by {
        forall i, j | 0 <= i < j < |pre| ensures pre[i] != pre[j] {
          assert pre[i] == users[i] && pre[j] == users[j];
        }
      }
      SavedPathsCount(dir, g, snapshot, pre, failed);
      assert users[n] !in pre by {
        forall i | 0 <= i < |pre| ensures pre[i] != users[n] {
          assert pre[i] == users[i];
        }
      }
      FailedAmongSnoc(pre, users[n], failed);
      assert pre + [users[n]] == users;
    }
  }

  lemma FailedAmongSnoc(pre: seq<UserId>, u: UserId, failed: set<UserId>)
    requires u !in pre
    ensures FailedAmong(pre + [u], failed) == FailedAmong(pre, failed) + (if u in failed then {u} else {})
    ensures u !in FailedAmong(pre, failed)
  {
  }

  /** With N users being recorded and exactly one conversion failing, N - 1 paths are
      reported. */
  lemma OneFailureLosesOnePath(dir: string, g: GuildId, snapshot: GuildStreams, failed: set<UserId>, u: UserId)
    requires snapshot.Valid()
    requires FailedAmong(snapshot.keys, failed) == {u}
    ensures |SavedPaths(dir, g, snapshot, snapshot.keys, failed)| == snapshot.Size() - 1
  {
    SavedPathsCount(dir, g, snapshot, snapshot.keys, failed);
  }

  /** Guild G1, user Alice started at t = 1000 in directory "recordings": stopping her
      yields "recordings/G1-Alice-1000.mp3", and the guild's now empty map stays in the
      registry. */
  lemma AliceScenario(u: UserId)
    ensures var reg := AfterStart(map[], "G1", u, StreamEntry("Alice", 1000), true);
      && IsTracked(reg, "G1", u)
      && OutputPath("recordings", "G1", reg["G1"].Get(u)) == "recordings/G1-Alice-1000.mp3"
      && "G1" in AfterStop(reg, "G1", u)
      && !IsRecording(AfterStop(reg, "G1", u), "G1")
  {
    var reg := AfterStart(map[], "G1", u, StreamEntry("Alice", 1000), true);
    StartAddsExactlyOne(map[], "G1", u, StreamEntry("Alice", 1000));
    ShowThousand();
    StopLastUserLeavesEmptyGuild(reg, "G1", u);
  }

  lemma ShowThousand()
    ensures ShowNat(1000) == "1000"
  {
    assert ShowNat(1000) == ShowNat(100) + ['0'];
    assert ShowNat(100) == ShowNat(10) + ['0'];
    assert ShowNat(10) == ShowNat(1) + ['0'];
  }
}

=== FILE: stoprecord_command.dfy ===
/**
 * The `/stoprecord` command (commands/recording/stoprecord.js): outside a server it only
 * replies; when the guild is not recording it leaves a lingering voice connection, if
 * any; when it is recording it stops the whole guild and reports completion.
 */
module StopRecordCommand {
  import opened Wrappers
  import opened Ids
  import opened Recording
  import Voice

  /** The replies the command sends. */
  datatype Reply = NotInServer | LeftChannel | NotRecording | FinishedCommand | ErrorWithCommand

  /** `execute(interaction)` of `/stoprecord`. `failed` and `destroyedMeanwhile` are passed
      on to `stopGuildRecording`. */
  method Execute(rec: Recorder, voice: Voice.VoiceConnections, guild: Option<GuildId>, failed: set<UserId>, destroyedMeanwhile: bool)
    returns (reply: Reply)
    requires rec.Valid() && voice.Valid()
    modifies rec, voice, if guild.Some? then voice.Live(guild.value) else {}
    ensures rec.Valid() && voice.Valid()
    ensures guild.None? ==> reply == NotInServer && rec.activeStreams == old(rec.activeStreams) && voice.tracked == old(voice.tracked)
    ensures guild.Some? && !IsRecording(old(rec.activeStreams), guild.value) ==>
      var g := guild.value;
      var connection := old(voice.Get(g));
      && rec.activeStreams == old(rec.activeStreams)
      && (connection.Some? ==> reply == LeftChannel && connection.value.status == Voice.Destroyed && voice.tracked == old(voice.tracked) - {g})
      && (connection.None? ==> reply == NotRecording && voice.tracked == old(voice.tracked))
    ensures guild.Some? && IsRecording(old(rec.activeStreams), guild.value) ==>
      var g := guild.value;
      var connection := old(voice.Get(g));
      && rec.activeStreams == old(rec.activeStreams) - {g}
      && !IsRecording(rec.activeStreams, g)
      && voice.tracked == old(voice.tracked) - {g}
      && (connection.Some? ==> connection.value.status == Voice.Destroyed)
      && (reply == FinishedCommand <==> !(connection.Some? && destroyedMeanwhile))
      && (reply == ErrorWithCommand <==> connection.Some? && destroyedMeanwhile)
  {
    if guild.None? {
      return NotInServer;
    }
    var g := guild.value;
    var connection := voice.Get(g);
    var recording := rec.IsGuildRecording(g);
    if !recording {
      if connection.Some? {
        var _ := voice.Destroy(connection.value);
        return LeftChannel;
      } else {
        return NotRecording;
      }
    }
    var outcome := rec.StopGuildRecording(voice, g, failed, destroyedMeanwhile);
    // "Finished Command" whether or not any file was saved
    reply := if outcome.Ok? then FinishedCommand else ErrorWithCommand;
  }
}

=== FILE: strings.dfy ===
/**
 * The few pieces of JavaScript string behaviour the bot relies on: template-literal
 * rendering of a non-negative integer, the whitespace class of `\s` and `trim()`, and
 * prefix/suffix tests.
 */
module Strings {

  predicate IsDigit(c: char) {
    '0' <= c <= '9'
  }

  predicate AllDigits(s: string) {
    forall i :: 0 <= i < |s| ==> IsDigit(s[i])
  }

  /** The characters matched by `\s` in a JavaScript regular expression, which are also
      the characters `String.prototype.trim` removes (WhiteSpace and LineTerminator). */
  predicate IsSpace(c: char) {
    || c == ' ' || c == '\t' || c == '\n' || c == '\r'
    || c == '\U{000B}' || c == '\U{000C}' || c == '\U{00A0}' || c == '\U{1680}'
    || ('\U{2000}' <= c <= '\U{200A}')
    || c == '\U{2028}' || c == '\U{2029}' || c == '\U{202F}' || c == '\U{205F}'
    || c == '\U{3000}' || c == '\U{FEFF}'
  }

  predicate IsPrefix(p: string, s: string) {
    |p| <= |s| && s[..|p|] == p
  }

  predicate EndsWith(s: string, suffix: string) {
    |suffix| <= |s| && s[|s| - |suffix|..] == suffix
  }

  function DigitChar(d: nat): (c: char)
    requires d < 10
    ensures IsDigit(c) && c as int - '0' as int == d
  {
    ('0' as int + d) as char
  }

  /** `${n}` for a non-negative integer: its decimal digits, without leading zeros. */
  function ShowNat(n: nat): (s: string)
    ensures |s| > 0 && AllDigits(s)
    ensures s[0] == '0' ==> n == 0
  {
    if n < 10 then [DigitChar(n)] else ShowNat(n / 10) + [DigitChar(n % 10)]
  }

  /** The value of a string of decimal digits. */
  function ParseDigits(s: string): nat
    requires AllDigits(s)
  {
    if s == [] then 0 else ParseDigits(s[..|s| - 1]) * 10 + (s[|s| - 1] as int - '0' as int)
  }

  /** Reading back a rendered number gives the number. */
  lemma {:induction false} ParseShowNat(n: nat)
    ensures ParseDigits(ShowNat(n)) == n
  {
    if n >= 10 {
      var s := ShowNat(n);
      assert s[..|s| - 1] == ShowNat(n / 10);
      ParseShowNat(n / 10);
    }
  }

  /** Distinct numbers render to distinct strings. */
  lemma ShowNatInjective(a: nat, b: nat)
    ensures ShowNat(a) == ShowNat(b) ==> a == b
  {
    ParseShowNat(a);
    ParseShowNat(b);
  }

  /** `s.trimStart()`: drops the leading run of whitespace. */
  function TrimStart(s: string): (r: string)
    ensures |r| <= |s| && r == s[|s| - |r|..]
    ensures forall i :: 0 <= i < |s| - |r| ==> IsSpace(s[i])
    ensures r == [] || !IsSpace(r[0])
  {
    if s != [] && IsSpace(s[0]) then TrimStart(s[1..]) else s
  }

  /** `s.trimEnd()`: drops the trailing run of whitespace. */
  function TrimEnd(s: string): (r: string)
    ensures |r| <= |s| && r == s[..|r|]
    ensures forall i :: |r| <= i < |s| ==> IsSpace(s[i])
    ensures r == [] || !IsSpace(r[|r| - 1])
  {
    if s != [] && IsSpace(s[|s| - 1]) then TrimEnd(s[..|s| - 1]) else s
  }

  /** `s.trim()`: neither starts nor ends with whitespace. */
  function Trim(s: string): (r: string)
    ensures r == [] || (!IsSpace(r[0]) && !IsSpace(r[|r| - 1]))
  {
    TrimEnd(TrimStart(s))
  }

  /** The trimmed string is a contiguous piece of the original and everything cut off on
      either side is whitespace. */
  lemma TrimSpec(s: string) returns (lo: nat)
    ensures var r := Trim(s);
      && lo + |r| <= |s| && s[lo..lo + |r|] == r
      && (forall i :: 0 <= i < lo ==> IsSpace(s[i]))
      && (forall i :: lo + |r| <= i < |s| ==> IsSpace(s[i]))
  {
    lo := |s| - |TrimStart(s)|;
    TrimIsSlice(s, lo);
    TrimCutsTrailingSpace(s, lo);
  }

  lemma TrimIsSlice(s: string, lo: nat)
    requires lo == |s| - |TrimStart(s)|
    ensures lo + |Trim(s)| <= |s| && s[lo..lo + |Trim(s)|] == Trim(s)
  {
    var t := TrimStart(s);
    SliceOfSlice(s, t, TrimEnd(t), lo);
  }

  /** A prefix of a suffix is a slice. */
  lemma SliceOfSlice(s: string, t: string, r: string, lo: nat)
    requires lo <= |s| && t == s[lo..] && |r| <= |t| && r == t[..|r|]
    ensures lo + |r| <= |s| && s[lo..lo + |r|] == r
  {
  }

  lemma TrimCutsTrailingSpace(s: string, lo: nat)
    requires lo == |s| - |TrimStart(s)|
    ensures forall i :: lo + |Trim(s)| <= i < |s| ==> IsSpace(s[i])
  {
    var t := TrimStart(s);
    assert t == s[lo..];
    forall i | lo + |Trim(s)| <= i < |s| ensures IsSpace(s[i]) {
      assert s[i] == t[i - lo];
    }
  }

  /** Trimming twice is trimming once. */
  lemma TrimIdempotent(s: string)
    ensures Trim(Trim(s)) == Trim(s)
  {
    var r := Trim(s);
    var _ := TrimSpec(s);
    assert TrimStart(r) == r;
    assert TrimEnd(r) == r;
  }

  /** Leading whitespace does not change the trimmed result. */
  lemma {:induction false} TrimSkipsLeadingSpace(s: string, k: nat)
    requires k <= |s|
    requires forall i :: 0 <= i < k ==> IsSpace(s[i])
    ensures Trim(s[k..]) == Trim(s)
  {
    if k > 0 {
      assert s[1..][k - 1..] == s[k..];
      TrimSkipsLeadingSpace(s[1..], k - 1);
    }
  }
}

=== FILE: tts.dfy ===
/**
 * The decision logic of tts-logic.js: the parameter check of `playTextToSpeech` and the
 * channel choice of `findMostPopulatedVoiceChannel`. Speech generation, the temporary
 * audio file and playback are I/O and are not modelled.
 */
module Tts {
  import opened Wrappers
  import opened Ids

  /** `channel.type`, reduced to what the choice tests. */
  datatype ChannelType = GuildVoice | GuildStageVoice | GuildText | Other

  /** A channel of the guild's cache: its id, its type and `channel.members.size`. */
  datatype Channel = Channel(id: ChannelId, kind: ChannelType, memberCount: nat)

  /** A channel the choice may return: a voice channel with someone in it. */
  predicate IsCandidate(c: Channel) {
    c.kind == GuildVoice && c.memberCount > 0
  }

  /** `playTextToSpeech(text, voiceChannel, guild)`. A missing channel or guild, or a
      missing or empty text, yields `false` before anything else happens; otherwise the
      result is that of generating and playing the speech, given as `played`. */
  function PlayTextToSpeech(text: Option<string>, voiceChannel: Option<ChannelId>, guild: Option<GuildId>, played: bool): (ok: bool)
    ensures ok ==> text.Some? && text.value != "" && voiceChannel.Some? && guild.Some?
    ensures text.Some? && text.value != "" && voiceChannel.Some? && guild.Some? ==> ok == played
  {
    if voiceChannel.None? || guild.None? || text.None? || text.value == "" then false else played
  }

  /** `findMostPopulatedVoiceChannel(guild)`, with `guild` given by its channel cache in
      iteration order. */
  method FindMostPopulatedVoiceChannel(guild: Option<seq<Channel>>) returns (r: Option<Channel>)
    ensures guild.None? ==> r.None?
    ensures guild.Some? ==> (r.None? <==> forall c :: c in guild.value ==> !IsCandidate(c))
    ensures r.Some? ==> guild.Some? && IsCandidate(r.value)
    // the member count of the chosen channel is the largest among the candidates
    ensures r.Some? ==> forall c :: c in guild.value && IsCandidate(c) ==> c.memberCount <= r.value.memberCount
    // on ties the first candidate in iteration order wins
    ensures r.Some? ==> exists i :: (0 <= i < |guild.value| && guild.value[i] == r.value
      && forall j :: 0 <= j < i && IsCandidate(guild.value[j]) ==> guild.value[j].memberCount < r.value.memberCount)
  {
    if guild.None? {
      return None;
    }
    var channels := guild.value;
    var mostPopulated: Option<Channel> := None;
    var maxMembers := 0;
    ghost var at := 0;
    for i := 0 to |channels|
      invariant mostPopulated.None? <==> forall j :: 0 <= j < i ==> !IsCandidate(channels[j])
      invariant mostPopulated.None? ==> maxMembers == 0
      invariant mostPopulated.Some? ==>
        && 0 <= at < i && channels[at] == mostPopulated.value
        && IsCandidate(mostPopulated.value) && maxMembers == mostPopulated.value.memberCount
        && (forall j :: 0 <= j < i && IsCandidate(channels[j]) ==> channels[j].memberCount <= maxMembers)
        && (forall j :: 0 <= j < at && IsCandidate(channels[j]) ==> channels[j].memberCount < maxMembers)
    {
      var channel := channels[i];
      if channel.kind == GuildVoice && channel.memberCount > 0 {
        if channel.memberCount > maxMembers {
          maxMembers := channel.memberCount;
          mostPopulated := Some(channel);
          at := i;
        }
      }
    }
    return mostPopulated;
  }
}

=== FILE: voice.dfy ===
/**
 * The part of the voice library the bot drives: connection objects and the library's own
 * table of live connections, one per guild, which `getVoiceConnection` consults.
 * Joining, readiness and the speaking listener are abstracted to the state they leave
 * behind; the network handshake itself is not modelled.
 */
module Voice {
  import opened Wrappers
  import opened Ids

  /** The connection states the bot tests (`VoiceConnectionStatus`); every state before
      `Ready` other than `Destroyed` is folded into `Signalling`. */
  datatype Status = Signalling | Ready | Destroyed

  /** A voice connection. `guildId` and `channelId` are its `joinConfig`; `listening`
      records that a 'start' listener has been attached to `receiver.speaking`. */
  class Connection {
    const guildId: GuildId
    const channelId: ChannelId
    var status: Status
    var listening: bool

    constructor (g: GuildId, ch: ChannelId)
      ensures guildId == g && channelId == ch
      ensures status == Signalling && !listening
    {
      guildId := g;
      channelId := ch;
      status := Signalling;
      listening := false;
    }
  }

  /** The library's table of live connections. A destroyed connection is no longer in it. */
  class VoiceConnections {
    var tracked: map<GuildId, Connection>

    ghost predicate Valid()
      reads this, tracked.Values
    {
      forall g :: g in tracked ==> tracked[g].guildId == g && tracked[g].status != Destroyed
    }

    constructor ()
      ensures Valid() && tracked == map[]
    {
      tracked := map[];
    }

    /** `getVoiceConnection(guildId)` */
    function Get(g: GuildId): (c: Option<Connection>)
      reads this
      ensures c.Some? <==> g in tracked
      ensures c.Some? ==> c.value == tracked[g]
    {
      if g in tracked then Some(tracked[g]) else None
    }

    /** The objects a command about guild `g` may change: that guild's live connection. */
    function Live(g: GuildId): set<Connection>
      reads this
    {
      if g in tracked then {tracked[g]} else {}
    }

    /** `joinVoiceChannel` for a guild without a live connection. */
    method Join(g: GuildId, ch: ChannelId) returns (c: Connection)
      requires Valid() && g !in tracked
      modifies this
      ensures Valid() && fresh(c)
      ensures c.guildId == g && c.channelId == ch && c.status == Signalling && !c.listening
      ensures tracked == old(tracked)[g := c]
    {
      c := new Connection(g, ch);
      tracked := tracked[g := c];
    }

    /** `connection.destroy()`: fails (the library throws) on a connection that is already
        destroyed; otherwise destroys it and drops it from the table. */
    method Destroy(c: Connection) returns (ok: bool)
      requires Valid()
      modifies this, c
      ensures Valid()
      ensures ok == (old(c.status) != Destroyed)
      ensures c.status == Destroyed && c.listening == old(c.listening)
      ensures tracked == if c.guildId in old(tracked) && old(tracked)[c.guildId] == c
                         then old(tracked) - {c.guildId} else old(tracked)
    {
      ok := c.status != Destroyed;
      if c.guildId in tracked && tracked[c.guildId] == c {
        tracked := tracked - {c.guildId};
      }
      c.status := Destroyed;
    }

    /** `entersState(connection, VoiceConnectionStatus.Ready, 30e3)`; `becomesReady` says
        whether the connection reaches `Ready` before the timeout. A destroyed connection
        never does. */
    method AwaitReady(c: Connection, becomesReady: bool) returns (ok: bool)
      requires Valid()
      modifies c
      ensures Valid()
      ensures ok == (old(c.status) == Ready || (becomesReady && old(c.status) != Destroyed))
      ensures c.status == (if ok then Ready else old(c.status))
      ensures c.listening == old(c.listening)
    {
      ok := c.status == Ready || (becomesReady && c.status != Destroyed);
      if ok {
        c.status := Ready;
      }
    }

    /** `connection.receiver.speaking.on('start', ...)` */
    method Listen(c: Connection)
      requires Valid()
      modifies c
      ensures Valid()
      ensures c.listening && c.status == old(c.status)
    {
      c.listening := true;
    }
  }
}

=== FILE: wrappers.dfy ===
/** Option and Result, for JavaScript's `null`/`undefined` and thrown errors. */
module Wrappers {

  datatype Option<+T> = None | Some(value: T)

  datatype Result<+T, +E> = Ok(value: T) | Err(error: E)
}
